=== FILE: README.md ===
# Board and sensor registry: a Dafny model

This project models the sensor registry of the temperature-logging host
program in `source/main_code/board.py`. Serial-connected boards are kept in a
process-wide list (`Board.boards_list`). Each board owns an ordered list of
analog sensors, one per input pin. Callers address sensors by name. They can
connect or disconnect a sensor, which also sends `c<pin>` or `d<pin>` to the
owning board. They can rename a sensor, measure every board (send `m`, then
read one line of space-separated raw readings), and restore names and
connection flags from a settings backup.

The model is functional:

- The registry is a `seq<Board>`, a board is its `seq<Sensor>`, and a sensor
  is the record `(pin, name, connected, value)`.
- The board that owns a sensor is the board whose list holds it. A board is
  identified by its position in the registry.
- Every write to a serial port becomes a `Write(board, data)` record. An
  operation returns the new registry together with the writes it made, in
  order; a caller appends them to its trace.
- Every line the code reads is an input string: the reply to `m` from a
  port, or the lines of the settings file.
- A Python exception that ends an operation becomes an error value. The
  registry is returned as the exception left it. `measure` updates sensors in
  place, so a reading that fails part-way leaves the earlier sensors updated,
  and the model keeps that.

Modules, leaves first:

- `Results` (`results.dfy`): `Option` and `Result`.
- `Text` (`text.dfy`): `str.split(sep)`, `str(n)` and `int(token)`, with
  their round trips.
- `Protocol` (`protocol.dfy`): the three commands and the text written for each.
- `Thermistor` (`thermistor.dfy`): `get_temperature_by_pin_value`.
- `Boards` (`boards.dfy`): sensors, one board's list, `generate_sensors_list`,
  the connected view and its count, and `measure`.
- `Registry` (`registry.dfy`): `find_sensor_by_name`, `get_all_sensors`,
  `get_all_connected_sensors`, `connect_sensor`, `disconnect_sensor`,
  `rename_sensor` and `measure_all_boards`.
- `SettingsBackup` (`backup.dfy`): `use_settings_backup` from the file's lines on.

Two behaviours of the code a reader may not expect:

- The code does not check that the measure reply has exactly one token per
  connected sensor. Extra tokens are ignored, and a missing token is an
  `IndexError` at that sensor.
- A settings backup marks sensors connected without sending `c<pin>` to the
  board. It also renames sensors without checking that the names stay unique.

## Model

| member | source | states |
|---|---|---|
| Text.Split | source/main_code/board.py:164 | `split(' ')` always yields at least one piece, no piece contains the separator, and a line without the separator is its own single piece |
| Text.JoinSplit | source/main_code/board.py:164 | splitting loses nothing: joining the pieces with the separator gives the line back |
| Text.SplitJoin | source/main_code/board.py:164 | pieces without the separator, joined and split again, come back unchanged |
| Text.NatToString | source/main_code/board.py:78 | the pin number in a command is a non-empty run of decimal digits with no leading zero: it starts with `0` exactly when the pin is 0 |
| Text.ParseInt | source/main_code/board.py:166 | `int(token)` in base 10, as called at line 166 and for the flag at line 53: a token it accepts is, once the white space `int()` ignores is stripped, non-empty, made of digits and underscores apart from a leading `+` or `-`, and ends in a digit, and a negative result comes only from a leading `-` (so `abc`, `12x` and `12_` are `ValueError`s); the lemmas below add that it reads back `str(n)` and `-` + `str(n)` and skips only the white space `int()` skips |
| Text.ParseIntRejectsLeadingSeparator | source/main_code/board.py:166 | every token whose first character is one of U+001C..U+001F is a `ValueError` |
| Text.ParseIntPadded | source/main_code/board.py:166 | for every `n >= 0` and any white space `int()` ignores before and after it, the decimal text of `n` reads as `n` |
| Text.ParseIntNatToString | source/main_code/board.py:166 | `int()` reads the decimal text of any `n >= 0` back as `n` |
| Text.ParseIntNegative | source/main_code/board.py:166 | `int()` reads `-` followed by the decimal text of `n` as `-n` |
| Protocol.Encode | source/main_code/board.py:78-86 | `m` is the measure command alone; the connect text starts with `c` and the disconnect text with `d`, followed by decimal digits whose value is the pin and which start with `0` only for pin 0, so the text is exactly `c<pin>` or `d<pin>` (the measure text is written at line 163) |
| Protocol.DecodeEncode | source/main_code/board.py:11-13 | each of `m`, `c<pin>`, `d<pin>` is read back as the command and pin it was written for |
| Protocol.EncodeInjective | source/main_code/board.py:78-86 | different commands or pins are never written as the same text |
| Thermistor.Temperature | source/main_code/board.py:124-130 | the conversion divides by zero exactly when the raw reading is 1024; in particular it is defined on the whole ADC range 0..1023 |
| Thermistor.TemperatureIsLinearInResistance | source/main_code/board.py:125-130 | the temperature is the linear fit `100/385 * R - 100000/385` of the divider resistance `R = 1000 v / (1024 - v)` |
| Thermistor.TemperatureGoldenValues | source/main_code/board.py:124-130 | reading 0 gives `-100000/385` degrees and reading 512 gives exactly 0 degrees |
| Thermistor.TemperatureIncreasing | source/main_code/board.py:124-130 | on 0..1023 a higher reading always gives a strictly higher temperature |
| Boards.GenerateSensorsList | source/main_code/board.py:139-143 | exactly `n` sensors (none for a negative count), pins 0..n-1 in order, default names, none connected, no value yet; so every pin equals its list position, which the `KeepsPins` lemmas show every later operation preserves |
| Boards.SensorsNumber | source/main_code/board.py:145-146 | `get_all_sensors_number` is the size of the board's list, which is never less than its connected count |
| Boards.ConnectedSensors | source/main_code/board.py:155-160 | the connected view holds only connected sensors and is no longer than the list |
| Boards.ConnectedSensorsAppend | source/main_code/board.py:155-160 | the connected view of a concatenation is the concatenation of the connected views |
| Boards.ConnectedSensorsIsSubsequence | source/main_code/board.py:155-160 | the connected view keeps the list's order: it is the list with some sensors deleted |
| Boards.ConnectedSensorAtRank | source/main_code/board.py:155-160 | the connected sensor at position `j` is element number `Rank(j)` of the connected view, so every connected sensor appears in it |
| Boards.ConnectedSensorsNumber | source/main_code/board.py:148-153 | the counting loop returns the length of the connected view |
| Boards.ConnectedCountAfterUpdate | source/main_code/board.py:148-153 | replacing one sensor changes the connected count by the difference of the two flags |
| Boards.Reading | source/main_code/board.py:166-167 | reading `i` is a missing-token error exactly when the reply has no token `i`, and succeeds exactly when that token is an integer other than 1024, with the value `get_temperature_by_pin_value(int(token))`; a token that is not an integer is a `ValueError` naming it, and 1024 is a `ZeroDivisionError` |
| Boards.Measured | source/main_code/board.py:162-168 | the declarative result of `measure`; described by `MeasuredOnlyChangesConnectedValues`, `MeasuredSuccess`, `MeasuredFailure`, `MeasuredNothingConnected` and `MeasuredDeviceReply` |
| Boards.GoodPrefix | source/main_code/board.py:165-168 | the number of leading readings that succeed: all below it succeed, and the one at it fails when it is below `k` |
| Boards.MeasuredKeepsPins | source/main_code/board.py:162-168 | measuring a board keeps every pin equal to its list position |
| Boards.MeasuredOnlyChangesConnectedValues | source/main_code/board.py:162-168 | a measurement changes only values, and never a disconnected sensor |
| Boards.MeasuredSuccess | source/main_code/board.py:162-168 | measuring succeeds iff each of the first `k` tokens is an integer the formula accepts; fewer than `k` tokens always fails; on success every connected sensor holds the reading of its own token |
| Boards.MeasuredFailure | source/main_code/board.py:162-168 | when reading `e` is the first to fail, the error is that reading's, the connected sensors before it are updated and those from it on keep their values |
| Boards.MeasuredNothingConnected | source/main_code/board.py:165 | a board with no connected sensor is measured without error and without change, whatever the reply |
| Boards.MeasuredDeviceReply | source/main_code/board.py:162-168 | a reply of one in-range decimal reading per connected sensor is measured without error, and each connected sensor gets the temperature of its own reading |
| Boards.Measure | source/main_code/board.py:162-168 | `measure` writes exactly `m` to its own board, and its loop leaves the board and error that `Measured` describes |
| Registry.Replace | source/main_code/board.py:80 | a sensor mutation changes the sensor at one place and nothing else |
| Registry.IndexOfName | source/main_code/board.py:99-101 | the inner scan returns the first position with the name, or nothing when no position from `from` on has it |
| Registry.FindFrom | source/main_code/board.py:98-102 | the outer scan returns the first match by board, then by position, or nothing when no board from `from` on has the name |
| Registry.FindSensorByName | source/main_code/board.py:97-102 | the lookup returns the first sensor with the name, boards in registry order and then sensors in list order, and returns not-found iff no sensor has that name |
| Registry.FindSensorByNameIsFirstNamed | source/main_code/board.py:97-102 | the first match is unique, so the lookup returns a sensor exactly when it is the first one with the name |
| Registry.FindSensorByNameIsFirstInAllSensors | source/main_code/board.py:97-102 | the lookup returns the first sensor of `get_all_sensors` with the name, and finds nothing iff that list has no such name |
| Registry.SameNamesSameLookup | source/main_code/board.py:97-102 | the lookup depends only on the names: registries with the same names in the same places give the same answer |
| Registry.AllSensors | source/main_code/board.py:112-116 | `get_all_sensors`, the boards' lists in registry order; described by `AllSensorsLength`, `AllSensorsAt` and `AllSensorsLoc` |
| Registry.AllConnectedSensors | source/main_code/board.py:105-109 | `get_all_connected_sensors`, the boards' connected views in registry order; described by `AllConnectedIsFilteredAll` and `AllConnectedIsSubsequence` |
| Registry.AllSensorsLength | source/main_code/board.py:112-116 | `get_all_sensors` has as many sensors as the boards' `get_all_sensors_number` added up |
| Registry.AllSensorsAt | source/main_code/board.py:112-116 | every sensor appears in `get_all_sensors` at its board's offset plus its position |
| Registry.AllSensorsLoc | source/main_code/board.py:112-116 | every position of `get_all_sensors` is the flat index of some sensor of some board |
| Registry.OffsetStep | source/main_code/board.py:112-116 | each board's sensors start right after the previous board's sensors end |
| Registry.OffsetMonotone | source/main_code/board.py:112-116 | a later board's sensors never start before an earlier board's |
| Registry.FlatIndexOrder | source/main_code/board.py:112-116 | the flattened order is the lookup's scan order: by board, then by position |
| Registry.AllConnectedIsFilteredAll | source/main_code/board.py:105-109 | `get_all_connected_sensors` is the per-board connected views concatenated, which equals the connected filter of `get_all_sensors` |
| Registry.AllConnectedIsSubsequence | source/main_code/board.py:105-116 | `get_all_connected_sensors` is an order-preserving subsequence of `get_all_sensors` |
| Registry.ConnectSensor | source/main_code/board.py:75-80 | when the first sensor with the name exists and is disconnected, it writes exactly `c<pin>` to that sensor's board and sets only that sensor's flag; otherwise no write and no change |
| Registry.DisconnectSensor | source/main_code/board.py:82-88 | when the first sensor with the name exists and is connected, it writes exactly `d<pin>` to its board and clears only that flag; otherwise no write and no change |
| Registry.ConnectThenDisconnect | source/main_code/board.py:75-88 | on a disconnected or unknown sensor, connect then disconnect restores the registry and writes `c<pin>` then `d<pin>` to its board (nothing for an unknown name) |
| Registry.ConnectChangesExpectedReadings | source/main_code/board.py:75-88 | a connect that writes adds one token to what the owning board's next measure reply must carry; a disconnect that writes removes one |
| Registry.SameExceptSameAt | source/main_code/board.py:75-94 | registries that differ at most at one sensor, and not there either, are equal |
| Registry.RenameSensor | source/main_code/board.py:90-94 | the first sensor named `old` takes the new name only when no sensor already has it; otherwise nothing changes; only that one name changes |
| Registry.RenameToSameName | source/main_code/board.py:90-94 | renaming a sensor to its own name is a no-op |
| Registry.RenameKeepsNamesUnique | source/main_code/board.py:90-94 | if all names are distinct before a rename, they are distinct after it |
| Registry.RenameRoundTrip | source/main_code/board.py:90-94 | with distinct names, renaming `a` to a free name `b` and back restores the registry |
| Registry.SameExceptKeepsPins | source/main_code/board.py:139-143 | a change at one sensor that leaves its pin alone keeps every pin equal to its list position, as `generate_sensors_list` made them |
| Registry.ConnectSensorKeepsPins | source/main_code/board.py:75-80 | connecting keeps every pin equal to its list position |
| Registry.DisconnectSensorKeepsPins | source/main_code/board.py:82-88 | disconnecting keeps every pin equal to its list position |
| Registry.RenameSensorKeepsPins | source/main_code/board.py:90-94 | renaming keeps every pin equal to its list position |
| Registry.MeasureAllBoards | source/main_code/board.py:118-121 | boards are measured in registry order, one `m` each; with no failure every board is measured; at the first failing board the call stops with its error, and later boards are neither written to nor changed |
| Registry.MeasureAllKeepsPins | source/main_code/board.py:118-121 | whether `measure_all_boards` finishes or stops at a failing board, every pin stays equal to its list position |
| SettingsBackup.ParseLine | source/main_code/board.py:52-53 | a line without `;` is an `IndexError` for that line; any error names its line; a parsed name never contains `;` |
| SettingsBackup.Restore | source/main_code/board.py:66-68 | a record sets the sensor's name; a set flag connects the sensor and a clear flag leaves its connected flag as it was, so the flag is never cleared; pin and value are kept |
| SettingsBackup.FirstFailure | source/main_code/board.py:50-57 | the position of the first failing line from `from` on: every line before it parses, and the line at it does not when it is within the file |
| SettingsBackup.CollectFrom | source/main_code/board.py:50-57 | the parsing loop ends with the first failing line's error when there is one, and otherwise yields every record in order |
| SettingsBackup.ParseLinesFrom | source/main_code/board.py:50-57 | all records are produced, in order, iff every line parses; otherwise the error is that of the first line that does not parse |
| SettingsBackup.ParseLineAnyFlag | source/main_code/board.py:52-53 | for any name without `;` and any `n >= 0`, the line `name;n` with a newline reads as that name with the flag `bool(n)`: every non-zero flag connects |
| SettingsBackup.ParseFormatLine | source/main_code/board.py:51-57 | a line `name;1` or `name;0` with a newline is read back as the same record when the name has no `;` |
| SettingsBackup.RestoreBoards | source/main_code/board.py:63-68 | board by board application keeps every board's size and applies record `i` to sensor `i` of `get_all_sensors` |
| SettingsBackup.ApplyBackup | source/main_code/board.py:59-68 | with a record count other than the sensor count nothing changes; otherwise sensor `i` of `get_all_sensors` takes record `i`'s name and becomes connected if its flag is set, keeping its pin and value |
| SettingsBackup.UseSettingsBackup | source/main_code/board.py:50-68 | any line that does not parse aborts with the first bad line's error before anything changes; otherwise the parsed records are applied as above |
| SettingsBackup.BackupNeverDisconnects | source/main_code/board.py:63-68 | restoring a backup never disconnects a connected sensor |
| SettingsBackup.RestoreBoardsKeepsPins | source/main_code/board.py:63-68 | board by board application leaves every sensor's pin as it was |
| SettingsBackup.ApplyBackupKeepsPins | source/main_code/board.py:59-68 | restoring a backup keeps every pin equal to its list position |

## Left out

- Port discovery and opening (`update_boards_list`, lines 22-42) and the
  serial handshake in `__init__` (lines 132-137) are OS and serial-library
  I/O. The handshake's pin count is the parameter of `GenerateSensorsList`.
  The board's `device_name` is not modelled.
- `write_line` and `read_line` (lines 170-176) are serial I/O. Writes are
  `Write` records. The reply line is an input string. `read_line` busy-waits
  until a line arrives, so `MeasureAllBoards` takes one reply per board. The
  `\n`/`\r` stripping of the reply is assumed done.
- Opening and reading the settings file (lines 46-48) is file I/O. The
  model starts from the file's lines.
- `update_settings_backup` (lines 71-72) has no body, so there is nothing to model.
- `sensor.py` is not part of this model. Its setters are modelled as plain
  field updates. The default sensor name is a parameter, `defaultName`. A
  new sensor starts disconnected and with the value `None`. A sensor object
  is assumed to be truthy, as the `if sensor` tests need.
- Thermistor.Temperature: computed over exact reals rather than IEEE doubles.
  Rounding is not modelled, so golden values hold exactly in the model and
  only to within rounding in Python. The `OverflowError` that `int / int`
  raises for readings too large for a float is not modelled.
- Text.ParseInt: reads base-10 text with an optional sign, underscores between
  digits, and Unicode white space around it. Python's `int()` also accepts
  non-ASCII decimal digits; the model rejects them. Python 3.11 and later
  also raise `ValueError` for a token of more than 4300 digits; the model
  reads any length.
- SettingsBackup.ParseLineAnyFlag: stated for flags written as the decimal
  text of `n >= 0`. `ParseLine` itself tests `v != 0`, so a negative flag
  such as `-1` connects too, but no lemma states it.

=== FILE: backup.dfy ===
/** `Board.use_settings_backup` once the settings file's lines are in hand:
    each line `name;flag` is parsed, and when there is exactly one record per
    sensor the records are applied to the sensors in `get_all_sensors` order.
    Reading the file itself is not modelled; the lines are the input. */
module SettingsBackup {
  import opened Results
  import opened Text
  import opened Boards
  import opened Registry

  /** One parsed line: the sensor's name and whether it was connected. */
  datatype Record = Record(name: string, connected: bool)

  /** A line `use_settings_backup` cannot parse: no `;`, so there is no second field
      (`IndexError`), or a second field that is not an integer (`ValueError`). */
  datatype BackupError = MissingFlag(line: nat) | FlagNotAnInteger(line: nat)

  /** Line `index`: the text before the first `;` is the name, and the field
      after it, read as an integer, is the flag (non-zero means connected). */
  function ParseLine(line: string, index: nat): (r: Result<Record, BackupError>)
    ensures r.Failure? ==> r.error.line == index
    ensures r.Success? ==> ';' !in r.value.name
    ensures ';' !in line ==> r == Failure(MissingFlag(index))
  {
    var fields := Split(line, ';');
    if |fields| < 2 then Failure(MissingFlag(index))
    else match ParseInt(fields[1])
      case None => Failure(FlagNotAnInteger(index))
      case Some(v) => Success(Record(fields[0], v != 0))
  }

  /** How a record is laid out in the settings file: name, `;`, `1` or `0`,
      newline (the layout `ParseLine` reads). */
  function FormatLine(rec: Record): string {
    rec.name + ";" + (if rec.connected then "1" else "0") + "\n"
  }

  /** A line `name;n` with any decimal flag `n` reads as `name` with the flag
      `bool(n)`: every non-zero integer connects the sensor. */
  lemma ParseLineAnyFlag(name: string, n: nat, index: nat)
    requires ';' !in name
    ensures ParseLine(name + ";" + NatToString(n) + "\n", index) == Success(Record(name, n != 0))
  {
    var flag := NatToString(n) + "\n";
    var line := name + ";" + NatToString(n) + "\n";
    assert line == name + (";" + flag);
    assert Split(flag, ';') == [flag];
    assert (";" + flag)[1..] == flag;
    assert Split(";" + flag, ';') == [""] + [flag];
    SplitAfterPlainPrefix(name, ";" + flag, ';');
    assert name + "" == name;
    assert Split(line, ';') == [name, flag];
    ParseIntPadded("", n, "\n");
    assert "" + NatToString(n) + "\n" == flag;
  }

  /** A record written out in the file's layout is read back unchanged, as
      long as its name has no `;` in it. */
  lemma ParseFormatLine(rec: Record, index: nat)
    requires ';' !in rec.name
    ensures ParseLine(FormatLine(rec), index) == Success(rec)
  {
    var bit: nat := if rec.connected then 1 else 0;
    ParseLineAnyFlag(rec.name, bit, index);
  }

  /** Where the first failure in `results[from..]` is, or `|results|` when
      every result from `from` on is a success. */
  function FirstFailure<T, E>(results: seq<Result<T, E>>, from: nat): (k: nat)
    requires from <= |results|
    ensures from <= k <= |results|
    ensures forall j :: from <= j < k ==> results[j].Success?
    ensures k < |results| ==> results[k].Failure?
    decreases |results| - from
  {
    if from == |results| || results[from].Failure? then from else FirstFailure(results, from + 1)
  }

  /** The loop that collects parsed lines from `from` on: the error of the
      first that did not parse, otherwise every record, in order. */
  function CollectFrom<T, E>(results: seq<Result<T, E>>, from: nat): (r: Result<seq<T>, E>)
    requires from <= |results|
    ensures FirstFailure(results, from) < |results| ==>
      r == Failure(results[FirstFailure(results, from)].error)
    ensures FirstFailure(results, from) == |results| ==>
      && r.Success?
      && |r.value| == |results| - from
      && forall i :: from <= i < |results| ==> r.value[i - from] == results[i].value
    decreases |results| - from
  {
    if from == |results| then Success([])
    else if results[from].Failure? then Failure(results[from].error)
    else
      var rest := CollectFrom(results, from + 1);
      if rest.Failure? then Failure(rest.error)
      else
        var all := [results[from].value] + rest.value;
        assert forall i :: from < i < |results| ==> all[i - from] == results[i].value;
        Success(all)
  }

  /** The parsing loop from line `from` on: every record, or the error of the
      first line that does not parse. */
  function ParseLinesFrom(lines: seq<string>, from: nat): (r: Result<seq<Record>, BackupError>)
    requires from <= |lines|
    ensures r.Success? <==> forall i :: from <= i < |lines| ==> ParseLine(lines[i], i).Success?
    ensures r.Success? ==>
      && |r.value| == |lines| - from
      && forall i :: from <= i < |lines| ==> r.value[i - from] == ParseLine(lines[i], i).value
    ensures r.Failure? ==>
      exists i ::
        && from <= i < |lines|
        && ParseLine(lines[i], i) == Failure(r.error)
        && forall j :: from <= j < i ==> ParseLine(lines[j], j).Success?
  {
    var results := seq(|lines|, i requires 0 <= i < |lines| => ParseLine(lines[i], i));
    assert forall i :: 0 <= i < |lines| ==> results[i] == ParseLine(lines[i], i);
    var k := FirstFailure(results, from);
    assert k < |lines| ==> ParseLine(lines[k], k) == Failure(results[k].error);
    CollectFrom(results, from)
  }

  /** Record `rec` applied to a sensor: the sensor takes the record's name and
      is connected if the record says so. A connected sensor stays connected,
      and nothing is written to the board. */
  function Restore(s: Sensor, rec: Record): (r: Sensor)
    ensures r.name == rec.name
    ensures s.connected ==> r.connected
    ensures rec.connected ==> r.connected
    ensures !rec.connected ==> r.connected == s.connected
    ensures r.(name := s.name, connected := s.connected) == s
  {
    s.(name := rec.name, connected := s.connected || rec.connected)
  }

  function RestoreAll(sensors: seq<Sensor>, records: seq<Record>): seq<Sensor>
    requires |records| == |sensors|
  {
    seq(|sensors|, i requires 0 <= i < |sensors| => Restore(sensors[i], records[i]))
  }

  lemma RestoreAllAppend(a: seq<Sensor>, b: seq<Sensor>, ra: seq<Record>, rb: seq<Record>)
    requires |ra| == |a| && |rb| == |b|
    ensures RestoreAll(a + b, ra + rb) == RestoreAll(a, ra) + RestoreAll(b, rb)
  {
  }

  /** Applies the records board by board: the sensors in `AllSensors` order
      take the records in order. */
  function RestoreBoards(boards: BoardsList, records: seq<Record>): (r: BoardsList)
    requires |records| == |AllSensors(boards)|
    ensures SameShape(boards, r)
    ensures AllSensors(r) == RestoreAll(AllSensors(boards), records)
    decreases |boards|
  {
    if |boards| == 0 then []
    else
      var init := boards[..|boards| - 1];
      var last := boards[|boards| - 1];
      var n := |AllSensors(init)|;
      assert boards == init + [last];
      var front := RestoreBoards(init, records[..n]);
      var tail := Board(RestoreAll(last.sensors, records[n..]));
      AllSensorsSnoc(front, tail);
      AllSensorsSnoc(init, last);
      RestoreAllAppend(AllSensors(init), last.sensors, records[..n], records[n..]);
      assert records == records[..n] + records[n..];
      front + [tail]
  }

  /** The post-read part of `use_settings_backup`: with a record count other
      than the number of sensors nothing changes; otherwise sensor `i` of
      `AllSensors` takes record `i`'s name and becomes connected if the
      record's flag is set, keeping its pin and value. */
  function ApplyBackup(boards: BoardsList, records: seq<Record>): (r: BoardsList)
    ensures |records| != |AllSensors(boards)| ==> r == boards
    ensures |records| == |AllSensors(boards)| ==>
      && SameShape(boards, r)
      && |AllSensors(r)| == |records|
      && forall i :: 0 <= i < |records| ==>
           && AllSensors(r)[i].name == records[i].name
           && AllSensors(r)[i].connected == (AllSensors(boards)[i].connected || records[i].connected)
           && AllSensors(r)[i].pin == AllSensors(boards)[i].pin
           && AllSensors(r)[i].value == AllSensors(boards)[i].value
  {
    if |records| != |AllSensors(boards)| then boards else RestoreBoards(boards, records)
  }

  /** `Board.use_settings_backup` on the file's lines: a line that does not
      parse aborts before anything changes; otherwise the records are
      applied as `ApplyBackup` describes. */
  function UseSettingsBackup(boards: BoardsList, lines: seq<string>): (r: Result<BoardsList, BackupError>)
    ensures r.Failure? <==> exists i :: 0 <= i < |lines| && ParseLine(lines[i], i).Failure?
    ensures r.Failure? ==>
      exists i ::
        && 0 <= i < |lines|
        && ParseLine(lines[i], i) == Failure(r.error)
        && forall j :: 0 <= j < i ==> ParseLine(lines[j], j).Success?
    ensures r.Success? && |lines| != |AllSensors(boards)| ==> r.value == boards
    ensures r.Success? && |lines| == |AllSensors(boards)| ==>
      && SameShape(boards, r.value)
      && |AllSensors(r.value)| == |lines|
      && forall i :: 0 <= i < |lines| ==>
           AllSensors(r.value)[i] == Restore(AllSensors(boards)[i], ParseLine(lines[i], i).value)
  {
    match ParseLinesFrom(lines, 0)
    case Failure(e) => Failure(e)
    case Success(records) => Success(ApplyBackup(boards, records))
  }

  /** Board by board application keeps every sensor's pin. */
  lemma {:induction false} RestoreBoardsKeepsPins(boards: BoardsList, records: seq<Record>, b: nat, j: nat)
    requires |records| == |AllSensors(boards)|
    requires b < |boards| && j < |boards[b].sensors|
    ensures j < |RestoreBoards(boards, records)[b].sensors|
    ensures RestoreBoards(boards, records)[b].sensors[j].pin == boards[b].sensors[j].pin
    decreases |boards|
  {
    var init := boards[..|boards| - 1];
    var n := |AllSensors(init)|;
    assert boards == init + [boards[|boards| - 1]];
    if b < |boards| - 1 {
      RestoreBoardsKeepsPins(init, records[..n], b, j);
    }
  }

  /** Restoring a backup keeps every pin at its position. */
  lemma ApplyBackupKeepsPins(boards: BoardsList, records: seq<Record>)
    requires PinsAreSlots(boards)
    ensures PinsAreSlots(ApplyBackup(boards, records))
  {
    var r := ApplyBackup(boards, records);
    if |records| == |AllSensors(boards)| {
      forall b | 0 <= b < |r|
        ensures PinsArePositions(r[b].sensors)
      {
        assert PinsArePositions(boards[b].sensors);
        forall j | 0 <= j < |r[b].sensors|
          ensures r[b].sensors[j].pin == j
        {
          RestoreBoardsKeepsPins(boards, records, b, j);
        }
      }
    }
  }

  /** Restoring a backup never disconnects a sensor. */
  lemma BackupNeverDisconnects(boards: BoardsList, records: seq<Record>, i: nat)
    requires i < |AllSensors(boards)| && AllSensors(boards)[i].connected
    ensures i < |AllSensors(ApplyBackup(boards, records))|
    ensures AllSensors(ApplyBackup(boards, records))[i].connected
  {
  }
}

=== FILE: boards.dfy ===
/** One board and the operations `Board` performs on its own sensor list:
    building it from the handshake's pin count, the connected view, and a
    measurement round over the line protocol. */
module Boards {
  import opened Results
  import opened Text
  import opened Protocol
  import opened Thermistor

  /** One analog input: its pin index on the owning board, its display name,
      whether the board samples it, and the last stored temperature (`None`
      before the first measurement). The owning board is the one whose list
      holds the sensor. */
  datatype Sensor = Sensor(pin: nat, name: string, connected: bool, value: Option<real>)

  /** A board is its ordered sensor list; the serial port is not modelled. */
  datatype Board = Board(sensors: seq<Sensor>)

  /** Pin indices are the list positions 0, 1, 2, ... */
  predicate PinsArePositions(sensors: seq<Sensor>) {
    forall i :: 0 <= i < |sensors| ==> sensors[i].pin == i
  }

  // ---------------------------------------------------------------------
  // Sensor creation
  // ---------------------------------------------------------------------

  /** `Board.generate_sensors_list`: one fresh sensor per input pin, pins
      `0 .. inputPinsNumber - 1` in order (none for a negative count, as
      `range` gives). A new sensor has the pin-derived default name, is
      disconnected and has no value yet. */
  method GenerateSensorsList(inputPinsNumber: int, defaultName: nat -> string) returns (sensors: seq<Sensor>)
    ensures |sensors| == (if inputPinsNumber < 0 then 0 else inputPinsNumber)
    ensures forall i :: 0 <= i < |sensors| ==> sensors[i] == Sensor(i, defaultName(i), false, None)
    ensures PinsArePositions(sensors)
    ensures ConnectedSensors(sensors) == []
  {
    sensors := [];
    var i := 0;
    while i < inputPinsNumber
      invariant 0 <= i && |sensors| == i
      invariant i <= (if inputPinsNumber < 0 then 0 else inputPinsNumber)
      invariant forall j :: 0 <= j < i ==> sensors[j] == Sensor(j, defaultName(j), false, None)
      invariant ConnectedSensors(sensors) == []
    {
      var sensor := Sensor(i, defaultName(i), false, None);
      ConnectedSensorsAppend(sensors, [sensor]);
      sensors := sensors + [sensor];
      i := i + 1;
    }
  }

  /** `Board.get_all_sensors_number`: never fewer than the connected sensors. */
  function SensorsNumber(board: Board): (n: nat)
    ensures |ConnectedSensors(board.sensors)| <= n
  {
    |board.sensors|
  }

  // ---------------------------------------------------------------------
  // The connected view
  // ---------------------------------------------------------------------

  /** `Board.get_connected_sensors`: the connected sensors, in list order. */
  function ConnectedSensors(sensors: seq<Sensor>): (r: seq<Sensor>)
    ensures |r| <= |sensors|
    ensures forall i :: 0 <= i < |r| ==> r[i].connected
  {
    if |sensors| == 0 then []
    else (if sensors[0].connected then [sensors[0]] else []) + ConnectedSensors(sensors[1..])
  }

  /** Filtering distributes over concatenation. */
  lemma {:induction false} ConnectedSensorsAppend(a: seq<Sensor>, b: seq<Sensor>)
    ensures ConnectedSensors(a + b) == ConnectedSensors(a) + ConnectedSensors(b)
  {
    if |a| == 0 {
      assert a + b == b;
    } else {
      var ab := a + b;
      assert ab[1..] == a[1..] + b by {
        assert |ab[1..]| == |a[1..] + b|;
      }
      assert ab[0] == a[0];
      ConnectedSensorsAppend(a[1..], b);
      var head := if a[0].connected then [a[0]] else [];
      assert ConnectedSensors(ab) == head + ConnectedSensors(ab[1..]);
      assert ConnectedSensors(a) == head + ConnectedSensors(a[1..]);
      assert head + (ConnectedSensors(a[1..]) + ConnectedSensors(b)) == (head + ConnectedSensors(a[1..])) + ConnectedSensors(b);
    }
  }

  /** `a` is `b` with some elements deleted, order kept. */
  predicate IsSubsequence<T(==)>(a: seq<T>, b: seq<T>)
    decreases |b|
  {
    if |a| == 0 then true
    else if |b| == 0 then false
    else (a[0] == b[0] && IsSubsequence(a[1..], b[1..])) || IsSubsequence(a, b[1..])
  }

  /** The connected view keeps the list's order: it is a subsequence of it. */
  lemma {:induction false} ConnectedSensorsIsSubsequence(sensors: seq<Sensor>)
    ensures IsSubsequence(ConnectedSensors(sensors), sensors)
    decreases |sensors|
  {
    if |sensors| > 0 {
      var c := ConnectedSensors(sensors);
      ConnectedSensorsIsSubsequence(sensors[1..]);
      if sensors[0].connected {
        assert c == [sensors[0]] + ConnectedSensors(sensors[1..]);
        assert c[0] == sensors[0] && c[1..] == ConnectedSensors(sensors[1..]);
      } else {
        assert c == ConnectedSensors(sensors[1..]);
      }
    }
  }

  /** `Board.get_connected_sensors_number`: counts the connected sensors, which
      is the length of the connected view. */
  method ConnectedSensorsNumber(board: Board) returns (n: nat)
    ensures n == |ConnectedSensors(board.sensors)|
  {
    n := 0;
    var i := 0;
    while i < |board.sensors|
      invariant 0 <= i <= |board.sensors|
      invariant n == Rank(board.sensors, i)
    {
      RankStep(board.sensors, i);
      if board.sensors[i].connected {
        n := n + 1;
      }
      i := i + 1;
    }
    assert board.sensors[..i] == board.sensors;
  }

  /** Replacing one sensor changes the connected count by the difference
      in the two flags. */
  lemma ConnectedCountAfterUpdate(sensors: seq<Sensor>, j: nat, s: Sensor)
    requires j < |sensors|
    ensures |ConnectedSensors(sensors[j := s])| + (if sensors[j].connected then 1 else 0)
         == |ConnectedSensors(sensors)| + (if s.connected then 1 else 0)
  {
    var pre, post := sensors[..j], sensors[j + 1..];
    assert sensors == pre + ([sensors[j]] + post);
    assert sensors[j := s] == pre + ([s] + post);
    ConnectedSensorsAppend(pre, [sensors[j]] + post);
    ConnectedSensorsAppend([sensors[j]], post);
    ConnectedSensorsAppend(pre, [s] + post);
    ConnectedSensorsAppend([s], post);
  }

  /** How many connected sensors precede position `j`: the position in the
      measure reply that belongs to the sensor at `j`. */
  function Rank(sensors: seq<Sensor>, j: nat): nat
    requires j <= |sensors|
  {
    |ConnectedSensors(sensors[..j])|
  }

  lemma RankStep(sensors: seq<Sensor>, j: nat)
    requires j < |sensors|
    ensures Rank(sensors, j + 1) == Rank(sensors, j) + (if sensors[j].connected then 1 else 0)
  {
    assert sensors[..j + 1] == sensors[..j] + [sensors[j]];
    ConnectedSensorsAppend(sensors[..j], [sensors[j]]);
  }

  lemma RankMonotone(sensors: seq<Sensor>, i: nat, j: nat)
    requires i <= j <= |sensors|
    ensures Rank(sensors, i) <= Rank(sensors, j)
  {
    assert sensors[..j] == sensors[..i] + sensors[i..j];
    ConnectedSensorsAppend(sensors[..i], sensors[i..j]);
  }

  /** The sensor at a connected position `j` is the `Rank(j)`-th element of
      the connected view. */
  lemma ConnectedSensorAtRank(sensors: seq<Sensor>, j: nat)
    requires j < |sensors| && sensors[j].connected
    ensures Rank(sensors, j) < |ConnectedSensors(sensors)|
    ensures ConnectedSensors(sensors)[Rank(sensors, j)] == sensors[j]
  {
    assert sensors == sensors[..j] + ([sensors[j]] + sensors[j + 1..]);
    ConnectedSensorsAppend(sensors[..j], [sensors[j]] + sensors[j + 1..]);
    ConnectedSensorsAppend([sensors[j]], sensors[j + 1..]);
    assert ConnectedSensors([sensors[j]]) == [sensors[j]];
  }

  lemma RanksBelowCount(sensors: seq<Sensor>)
    ensures forall j :: 0 <= j < |sensors| && sensors[j].connected ==> Rank(sensors, j) < |ConnectedSensors(sensors)|
  {
    forall j | 0 <= j < |sensors| && sensors[j].connected
      ensures Rank(sensors, j) < |ConnectedSensors(sensors)|
    {
      ConnectedSensorAtRank(sensors, j);
    }
  }

  // ---------------------------------------------------------------------
  // Measurement
  // ---------------------------------------------------------------------

  /** Where `measure` stops: the reply has no token at this index
      (`IndexError`), the token is not an integer (`ValueError`), or the
      reading makes the temperature formula divide by zero. */
  datatype MeasureError = MissingToken(index: nat) | NotAnInteger(token: string) | ZeroDivision(reading: int)

  /** `read_line().split(' ')`: the reply's tokens. */
  function Tokens(reply: string): seq<string> {
    Split(reply, ' ')
  }

  /** The number of readings a measure reply has to carry. */
  function ExpectedReadings(board: Board): nat {
    |ConnectedSensors(board.sensors)|
  }

  /** The temperature for the `i`-th connected sensor, from token `i`. */
  function Reading(tokens: seq<string>, i: nat): (r: Result<real, MeasureError>)
    ensures r == Failure(MissingToken(i)) <==> i >= |tokens|
    ensures r.Success? <==>
      i < |tokens| && ParseInt(tokens[i]).Some? && ParseInt(tokens[i]).value != 1024
    ensures r.Success? ==> Temperature(ParseInt(tokens[i]).value) == Some(r.value)
    ensures i < |tokens| && ParseInt(tokens[i]).None? ==> r == Failure(NotAnInteger(tokens[i]))
    ensures i < |tokens| && ParseInt(tokens[i]) == Some(1024) ==> r == Failure(ZeroDivision(1024))
  {
    if i >= |tokens| then Failure(MissingToken(i))
    else match ParseInt(tokens[i])
      case None => Failure(NotAnInteger(tokens[i]))
      case Some(v) =>
        match Temperature(v)
        case None => Failure(ZeroDivision(v))
        case Some(t) => Success(t)
  }

  /** How many of the first `k` readings succeed before the first failure. */
  function GoodPrefix(tokens: seq<string>, k: nat): (e: nat)
    ensures e <= k
    ensures forall i :: 0 <= i < e ==> Reading(tokens, i).Success?
    ensures e < k ==> Reading(tokens, e).Failure?
  {
    if k == 0 then 0
    else
      var e := GoodPrefix(tokens, k - 1);
      if e < k - 1 then e
      else if Reading(tokens, k - 1).Success? then k
      else k - 1
  }

  /** A board after `measure`, and the error that ended it, if any. */
  datatype Measurement = Measurement(board: Board, error: Option<MeasureError>)

  /** The sensor at `j` once the first `e` readings have been stored. */
  function MeasuredSensor(sensors: seq<Sensor>, tokens: seq<string>, e: nat, j: nat): Sensor
    requires j < |sensors|
    requires forall i :: 0 <= i < e ==> Reading(tokens, i).Success?
  {
    var s := sensors[j];
    if s.connected && Rank(sensors, j) < e then s.(value := Some(Reading(tokens, Rank(sensors, j)).value)) else s
  }

  /** What `Board.measure` leaves behind for a given reply line: the `i`-th
      connected sensor (in list order) takes the temperature of token `i`,
      for every `i` below the first reading that cannot be taken; that
      reading, if there is one among the first `ExpectedReadings`, is the
      error. */
  function Measured(board: Board, reply: string): Measurement {
    var sensors := board.sensors;
    var tokens := Tokens(reply);
    var k := ExpectedReadings(board);
    var e := GoodPrefix(tokens, k);
    Measurement(
      Board(seq(|sensors|, j requires 0 <= j < |sensors| => MeasuredSensor(sensors, tokens, e, j))),
      if e < k then Some(Reading(tokens, e).error) else None)
  }

  /** A measurement changes nothing but values, and never the value of a
      disconnected sensor. */
  lemma MeasuredOnlyChangesConnectedValues(board: Board, reply: string)
    ensures |Measured(board, reply).board.sensors| == |board.sensors|
    ensures forall j :: 0 <= j < |board.sensors| ==>
      Measured(board, reply).board.sensors[j].(value := board.sensors[j].value) == board.sensors[j]
    ensures forall j :: 0 <= j < |board.sensors| && !board.sensors[j].connected ==>
      Measured(board, reply).board.sensors[j] == board.sensors[j]
  {
  }

  /** Measuring never moves a pin. */
  lemma MeasuredKeepsPins(board: Board, reply: string)
    requires PinsArePositions(board.sensors)
    ensures PinsArePositions(Measured(board, reply).board.sensors)
  {
    MeasuredOnlyChangesConnectedValues(board, reply);
    var after := Measured(board, reply).board.sensors;
    forall j | 0 <= j < |after|
      ensures after[j].pin == j
    {
      assert after[j].pin == after[j].(value := board.sensors[j].value).pin;
    }
  }

  /** The round succeeds exactly when each of the first `ExpectedReadings`
      tokens is an integer the formula accepts; then every connected sensor
      holds the reading of its own token. Extra tokens are ignored, and too
      few tokens is always a failure. */
  lemma MeasuredSuccess(board: Board, reply: string)
    ensures Measured(board, reply).error.None? <==>
      forall i :: 0 <= i < ExpectedReadings(board) ==> Reading(Tokens(reply), i).Success?
    ensures |Tokens(reply)| < ExpectedReadings(board) ==> Measured(board, reply).error.Some?
    ensures Measured(board, reply).error.None? ==>
      forall j :: 0 <= j < |board.sensors| && board.sensors[j].connected ==>
        && Reading(Tokens(reply), Rank(board.sensors, j)).Success?
        && Measured(board, reply).board.sensors[j].value == Some(Reading(Tokens(reply), Rank(board.sensors, j)).value)
  {
    var tokens := Tokens(reply);
    var k := ExpectedReadings(board);
    if |tokens| < k {
      assert Reading(tokens, |tokens|).Failure?;
    }
    RanksBelowCount(board.sensors);
  }

  /** When reading `e` is the first that fails, the error is that reading's
      and exactly the connected sensors before it have been updated. */
  lemma MeasuredFailure(board: Board, reply: string, e: nat)
    requires e < ExpectedReadings(board)
    requires Reading(Tokens(reply), e).Failure?
    requires forall i :: 0 <= i < e ==> Reading(Tokens(reply), i).Success?
    ensures Measured(board, reply).error == Some(Reading(Tokens(reply), e).error)
    ensures forall j :: 0 <= j < |board.sensors| && board.sensors[j].connected ==>
      Measured(board, reply).board.sensors[j].value ==
        if Rank(board.sensors, j) < e then Some(Reading(Tokens(reply), Rank(board.sensors, j)).value)
        else board.sensors[j].value
  {
    var tokens := Tokens(reply);
    var g := GoodPrefix(tokens, ExpectedReadings(board));
    assert g == e;
  }

  /** A board with no connected sensor is measured without error and
      without change, whatever the reply. */
  lemma MeasuredNothingConnected(board: Board, reply: string)
    requires ExpectedReadings(board) == 0
    ensures Measured(board, reply) == Measurement(board, None)
  {
    assert Measured(board, reply).board.sensors == board.sensors;
  }

  /** The reply line a device sends for the given raw readings: their
      decimal forms separated by single spaces. */
  function DeviceReply(readings: seq<nat>): string {
    if |readings| == 0 then "" else Join(seq(|readings|, i requires 0 <= i < |readings| => NatToString(readings[i])), ' ')
  }

  /** A well-formed reply, one in-range reading per connected sensor, is
      measured without error, and each connected sensor gets the temperature
      of its own reading. */
  lemma MeasuredDeviceReply(board: Board, readings: seq<nat>)
    requires |readings| == ExpectedReadings(board)
    requires forall i :: 0 <= i < |readings| ==> readings[i] < 1024
    ensures Measured(board, DeviceReply(readings)).error.None?
    ensures forall j :: 0 <= j < |board.sensors| && board.sensors[j].connected ==>
      && Rank(board.sensors, j) < |readings|
      && Measured(board, DeviceReply(readings)).board.sensors[j].value == Temperature(readings[Rank(board.sensors, j)])
  {
    var reply := DeviceReply(readings);
    RanksBelowCount(board.sensors);
    if |readings| == 0 {
      MeasuredNothingConnected(board, reply);
    } else {
      var pieces := seq(|readings|, i requires 0 <= i < |readings| => NatToString(readings[i]));
      forall i | 0 <= i < |pieces|
        ensures ' ' !in pieces[i]
      {
        assert !IsDigit(' ');
      }
      SplitJoin(pieces, ' ');
      assert Tokens(reply) == pieces;
      forall i | 0 <= i < |readings|
        ensures Reading(pieces, i) == Success(Temperature(readings[i]).value)
      {
        ParseIntNatToString(readings[i]);
      }
      MeasuredSuccess(board, reply);
    }
  }

  /** Partway through `measure`: the sensors before `j` are as `Measured`
      leaves them and the sensors from `j` on are untouched. */
  predicate MeasuredUpTo(board: Board, reply: string, j: nat, sensors: seq<Sensor>) {
    var tokens := Tokens(reply);
    var e := GoodPrefix(tokens, ExpectedReadings(board));
    && j <= |sensors| == |board.sensors|
    && (forall x :: 0 <= x < j ==> sensors[x] == MeasuredSensor(board.sensors, tokens, e, x))
    && (forall x :: j <= x < |sensors| ==> sensors[x] == board.sensors[x])
  }

  /** One loop step past a disconnected sensor. */
  lemma MeasureStepSkip(board: Board, reply: string, j: nat, sensors: seq<Sensor>)
    requires MeasuredUpTo(board, reply, j, sensors)
    requires j < |sensors| && !board.sensors[j].connected
    ensures MeasuredUpTo(board, reply, j + 1, sensors)
  {
  }

  /** One loop step storing the reading of a connected sensor. */
  lemma MeasureStepStore(board: Board, reply: string, j: nat, sensors: seq<Sensor>)
    requires MeasuredUpTo(board, reply, j, sensors)
    requires j < |sensors| && board.sensors[j].connected
    requires Rank(board.sensors, j) <= GoodPrefix(Tokens(reply), ExpectedReadings(board))
    requires Reading(Tokens(reply), Rank(board.sensors, j)).Success?
    ensures Rank(board.sensors, j) < GoodPrefix(Tokens(reply), ExpectedReadings(board))
    ensures MeasuredUpTo(board, reply, j + 1,
      sensors[j := sensors[j].(value := Some(Reading(Tokens(reply), Rank(board.sensors, j)).value))])
  {
    ConnectedSensorAtRank(board.sensors, j);
  }

  /** The list `measure` holds when the reading for the connected sensor at
      `j` fails: everything before `j` is updated, nothing from `j` on. */
  lemma MeasuredWhenStopped(board: Board, reply: string, j: nat, sensors: seq<Sensor>)
    requires MeasuredUpTo(board, reply, j, sensors)
    requires j < |sensors| && board.sensors[j].connected
    requires Reading(Tokens(reply), Rank(board.sensors, j)).Failure?
    requires Rank(board.sensors, j) <= GoodPrefix(Tokens(reply), ExpectedReadings(board))
    ensures Measured(board, reply) == Measurement(Board(sensors), Some(Reading(Tokens(reply), Rank(board.sensors, j)).error))
  {
    var tokens := Tokens(reply);
    var e := GoodPrefix(tokens, ExpectedReadings(board));
    ConnectedSensorAtRank(board.sensors, j);
    assert Rank(board.sensors, j) == e;
    forall x | j <= x < |sensors|
      ensures sensors[x] == MeasuredSensor(board.sensors, tokens, e, x)
    {
      RankMonotone(board.sensors, j, x);
    }
    assert sensors == Measured(board, reply).board.sensors;
  }

  /** The list `measure` holds when every connected sensor got its reading. */
  lemma MeasuredWhenFinished(board: Board, reply: string, sensors: seq<Sensor>)
    requires MeasuredUpTo(board, reply, |sensors|, sensors)
    requires Rank(board.sensors, |board.sensors|) <= GoodPrefix(Tokens(reply), ExpectedReadings(board))
    ensures Measured(board, reply) == Measurement(Board(sensors), None)
  {
    assert board.sensors[..|board.sensors|] == board.sensors;
    assert sensors == Measured(board, reply).board.sensors;
  }

  /** `Board.measure`: writes the measure command to this board (at position
      `id` of the registry), then stores the reply's readings sensor by
      sensor, stopping at the first reading that cannot be taken. The result
      is exactly `Measured`. */
  method Measure(board: Board, id: nat, reply: string) returns (measured: Board, err: Option<MeasureError>, writes: seq<Write>)
    ensures writes == [Write(id, Encode(Command.Measure))]
    ensures Measurement(measured, err) == Measured(board, reply)
  {
    writes := [Write(id, Encode(Command.Measure))];
    var tokens := Tokens(reply);
    ghost var e := GoodPrefix(tokens, ExpectedReadings(board));
    var sensors := board.sensors;
    var rank := 0;
    var j := 0;
    while j < |sensors|
      invariant MeasuredUpTo(board, reply, j, sensors)
      invariant rank == Rank(board.sensors, j) && rank <= e
    {
      RankStep(board.sensors, j);
      var sensor := sensors[j];
      if sensor.connected {
        var reading := Reading(tokens, rank);
        if reading.Failure? {
          measured, err := Board(sensors), Some(reading.error);
          MeasuredWhenStopped(board, reply, j, sensors);
          return;
        }
        MeasureStepStore(board, reply, j, sensors);
        sensors := sensors[j := sensor.(value := Some(reading.value))];
        rank := rank + 1;
      } else {
        MeasureStepSkip(board, reply, j, sensors);
      }
      j := j + 1;
    }
    measured, err := Board(sensors), None;
    MeasuredWhenFinished(board, reply, sensors);
  }
}

=== FILE: protocol.dfy ===
/** The host-to-device half of the line protocol: the three commands a board
    accepts and the exact text written for each. */
module Protocol {
  import opened Results
  import opened Text

  /** `Board.MEASURE`, `Board.CONNECT_SENSOR` and `Board.DISCONNECT_SENSOR`,
      the latter two followed by the pin index. */
  datatype Command = Measure | ConnectPin(pin: nat) | DisconnectPin(pin: nat)

  /** One `write_line` call: the text sent to the board at position `board`
      of the registry. No line terminator is added. */
  datatype Write = Write(board: nat, data: string)

  /** The text `write_line` sends for a command: `"m"`, `"c" + pin`, `"d" + pin`. */
  function Encode(c: Command): (r: string)
    ensures c.Measure? <==> r == "m"
    ensures !c.Measure? ==> |r| >= 2 && AllDigits(r[1..]) && DigitsValue(r[1..]) == c.pin
    ensures c.ConnectPin? ==> r[0] == 'c'
    ensures c.DisconnectPin? ==> r[0] == 'd'
    ensures !c.Measure? ==> (r[1] == '0' <==> c.pin == 0)
  {
    match c
    case Measure => "m"
    case ConnectPin(p) =>
      DigitsValueNatToString(p);
      assert ("c" + NatToString(p))[1..] == NatToString(p);
      "c" + NatToString(p)
    case DisconnectPin(p) =>
      DigitsValueNatToString(p);
      assert ("d" + NatToString(p))[1..] == NatToString(p);
      "d" + NatToString(p)
  }

  /** A reference reader for command lines, defined here to show that
      `Encode` is unambiguous: a letter, then for the pin commands a
      non-empty run of decimal digits. */
  function Decode(line: string): Option<Command> {
    if line == "m" then Some(Measure)
    else if |line| >= 2 && line[0] == 'c' && AllDigits(line[1..]) then Some(ConnectPin(DigitsValue(line[1..])))
    else if |line| >= 2 && line[0] == 'd' && AllDigits(line[1..]) then Some(DisconnectPin(DigitsValue(line[1..])))
    else None
  }

  /** Every command the host writes is read back as that command. */
  lemma DecodeEncode(c: Command)
    ensures Decode(Encode(c)) == Some(c)
  {
    // The digits after the letter read back as the pin, by `Encode`'s contract.
  }

  /** Distinct commands are written as distinct text, so the device can tell
      which pin a connect or disconnect is about. */
  lemma EncodeInjective(a: Command, b: Command)
    ensures Encode(a) == Encode(b) ==> a == b
  {
    DecodeEncode(a);
    DecodeEncode(b);
  }
}

=== FILE: registry.dfy ===
/** The process-wide board list (`Board.boards_list`) and the static
    operations over it: lookup by sensor name, the flattened views, connect,
    disconnect, rename, and measuring every board. */
module Registry {
  import opened Results
  import opened Protocol
  import opened Boards

  /** `Board.boards_list`, in discovery order. A board is identified by its
      position here, and a write to it carries that position. */
  type BoardsList = seq<Board>

  /** A sensor's place in the registry: board position, then list position. */
  datatype Loc = Loc(board: nat, slot: nat)

  predicate ValidLoc(boards: BoardsList, l: Loc) {
    l.board < |boards| && l.slot < |boards[l.board].sensors|
  }

  function At(boards: BoardsList, l: Loc): Sensor
    requires ValidLoc(boards, l)
  {
    boards[l.board].sensors[l.slot]
  }

  /** Same number of boards, and the same number of sensors on each. */
  predicate SameShape(a: BoardsList, b: BoardsList) {
    |a| == |b| && forall i :: 0 <= i < |a| ==> |a[i].sensors| == |b[i].sensors|
  }

  /** `b` is `a` with at most the sensor at `l` different. */
  predicate SameExcept(a: BoardsList, b: BoardsList, l: Loc) {
    && SameShape(a, b)
    && forall i, j :: 0 <= i < |a| && 0 <= j < |a[i].sensors| && (i != l.board || j != l.slot) ==>
         b[i].sensors[j] == a[i].sensors[j]
  }

  /** Puts `s` at `l`, leaving every other sensor as it was. */
  function Replace(boards: BoardsList, l: Loc, s: Sensor): (r: BoardsList)
    requires ValidLoc(boards, l)
    ensures ValidLoc(r, l) && At(r, l) == s
    ensures SameExcept(boards, r, l)
  {
    boards[l.board := Board(boards[l.board].sensors[l.slot := s])]
  }

  /** Two registries that differ at most at `l`, and not at `l` either, are equal. */
  lemma SameExceptSameAt(a: BoardsList, b: BoardsList, l: Loc)
    requires ValidLoc(a, l) && SameExcept(a, b, l) && At(b, l) == At(a, l)
    ensures a == b
  {
    forall i | 0 <= i < |a|
      ensures a[i] == b[i]
    {
      assert a[i].sensors == b[i].sensors;
    }
  }

  // ---------------------------------------------------------------------
  // Flattened views
  // ---------------------------------------------------------------------

  /** `Board.get_all_sensors`: every board's sensors, boards in registry order. */
  function AllSensors(boards: BoardsList): seq<Sensor> {
    if |boards| == 0 then [] else AllSensors(boards[..|boards| - 1]) + boards[|boards| - 1].sensors
  }

  /** `Board.get_all_connected_sensors`: every board's connected view, boards
      in registry order. */
  function AllConnectedSensors(boards: BoardsList): seq<Sensor> {
    if |boards| == 0 then []
    else AllConnectedSensors(boards[..|boards| - 1]) + ConnectedSensors(boards[|boards| - 1].sensors)
  }

  /** The sum of `get_all_sensors_number` over the boards. */
  function TotalSensorsNumber(boards: BoardsList): nat {
    if |boards| == 0 then 0 else TotalSensorsNumber(boards[..|boards| - 1]) + SensorsNumber(boards[|boards| - 1])
  }

  /** The flattened list holds exactly the per-board counts added up. */
  lemma {:induction false} AllSensorsLength(boards: BoardsList)
    ensures |AllSensors(boards)| == TotalSensorsNumber(boards)
  {
    if |boards| > 0 {
      AllSensorsLength(boards[..|boards| - 1]);
    }
  }

  /** Adding a board at the end adds its sensors at the end of the flat list. */
  lemma AllSensorsSnoc(boards: BoardsList, b: Board)
    ensures AllSensors(boards + [b]) == AllSensors(boards) + b.sensors
  {
    assert (boards + [b])[..|boards|] == boards;
  }

  /** The registry-wide connected view is the connected filter of the
      registry-wide list. */
  lemma {:induction false} AllConnectedIsFilteredAll(boards: BoardsList)
    ensures AllConnectedSensors(boards) == ConnectedSensors(AllSensors(boards))
  {
    if |boards| > 0 {
      var init := boards[..|boards| - 1];
      AllConnectedIsFilteredAll(init);
      ConnectedSensorsAppend(AllSensors(init), boards[|boards| - 1].sensors);
    }
  }

  /** The registry-wide connected view keeps the order of `AllSensors`. */
  lemma AllConnectedIsSubsequence(boards: BoardsList)
    ensures IsSubsequence(AllConnectedSensors(boards), AllSensors(boards))
  {
    AllConnectedIsFilteredAll(boards);
    ConnectedSensorsIsSubsequence(AllSensors(boards));
  }

  /** Where board `b`'s sensors start in `AllSensors`. */
  function Offset(boards: BoardsList, b: nat): nat
    requires b <= |boards|
  {
    |AllSensors(boards[..b])|
  }

  /** A sensor's position in `AllSensors`. */
  function FlatIndex(boards: BoardsList, l: Loc): nat
    requires ValidLoc(boards, l)
  {
    Offset(boards, l.board) + l.slot
  }

  lemma OffsetStep(boards: BoardsList, b: nat)
    requires b < |boards|
    ensures Offset(boards, b + 1) == Offset(boards, b) + |boards[b].sensors|
  {
    assert boards[..b + 1][..b] == boards[..b];
  }

  lemma {:induction false} OffsetMonotone(boards: BoardsList, b1: nat, b2: nat)
    requires b1 <= b2 <= |boards|
    ensures Offset(boards, b1) <= Offset(boards, b2)
    decreases b2 - b1
  {
    if b1 < b2 {
      OffsetStep(boards, b1);
      OffsetMonotone(boards, b1 + 1, b2);
    }
  }

  /** Every sensor sits in `AllSensors` at its flat index. */
  lemma {:induction false} AllSensorsAt(boards: BoardsList, l: Loc)
    requires ValidLoc(boards, l)
    ensures FlatIndex(boards, l) < |AllSensors(boards)|
    ensures AllSensors(boards)[FlatIndex(boards, l)] == At(boards, l)
    decreases |boards|
  {
    var init := boards[..|boards| - 1];
    if l.board == |boards| - 1 {
      assert boards[..l.board] == init;
    } else {
      AllSensorsAt(init, l);
      assert init[..l.board] == boards[..l.board];
    }
  }

  /** Every position of `AllSensors` is the flat index of some sensor. */
  lemma {:induction false} AllSensorsLoc(boards: BoardsList, i: nat) returns (l: Loc)
    requires i < |AllSensors(boards)|
    ensures ValidLoc(boards, l) && FlatIndex(boards, l) == i
    decreases |boards|
  {
    var init := boards[..|boards| - 1];
    if i < |AllSensors(init)| {
      l := AllSensorsLoc(init, i);
      assert init[..l.board] == boards[..l.board];
    } else {
      l := Loc(|boards| - 1, i - |AllSensors(init)|);
      assert boards[..l.board] == init;
    }
  }

  /** Flat indices order sensors as the lookup scans them: by board, then
      by position on the board. */
  lemma FlatIndexOrder(boards: BoardsList, l1: Loc, l2: Loc)
    requires ValidLoc(boards, l1) && ValidLoc(boards, l2)
    ensures FlatIndex(boards, l1) < FlatIndex(boards, l2) <==>
      (l1.board < l2.board || (l1.board == l2.board && l1.slot < l2.slot))
  {
    if l1.board < l2.board {
      OffsetStep(boards, l1.board);
      OffsetMonotone(boards, l1.board + 1, l2.board);
    } else if l2.board < l1.board {
      OffsetStep(boards, l2.board);
      OffsetMonotone(boards, l2.board + 1, l1.board);
    }
  }

  // ---------------------------------------------------------------------
  // Names and lookup
  // ---------------------------------------------------------------------

  predicate HasName(boards: BoardsList, name: string) {
    exists i, j :: 0 <= i < |boards| && 0 <= j < |boards[i].sensors| && boards[i].sensors[j].name == name
  }

  /** `l` holds the first sensor called `name` when the boards are scanned
      in registry order and each board's sensors in list order. */
  predicate FirstNamed(boards: BoardsList, name: string, l: Loc) {
    && ValidLoc(boards, l)
    && At(boards, l).name == name
    && forall i, j ::
         (0 <= i < |boards| && 0 <= j < |boards[i].sensors| && (i < l.board || (i == l.board && j < l.slot)))
         ==> boards[i].sensors[j].name != name
  }

  /** No two sensors anywhere in the registry share a name. */
  predicate NamesUnique(boards: BoardsList) {
    forall i1, j1, i2, j2 ::
      (&& 0 <= i1 < |boards| && 0 <= j1 < |boards[i1].sensors|
       && 0 <= i2 < |boards| && 0 <= j2 < |boards[i2].sensors|
       && boards[i1].sensors[j1].name == boards[i2].sensors[j2].name)
      ==> i1 == i2 && j1 == j2
  }

  /** Same shape and the same name at every position. */
  predicate SameNames(a: BoardsList, b: BoardsList) {
    && SameShape(a, b)
    && forall i, j :: 0 <= i < |a| && 0 <= j < |a[i].sensors| ==> b[i].sensors[j].name == a[i].sensors[j].name
  }

  /** The inner loop of `find_sensor_by_name`: the first position at or after
      `from` whose sensor is called `name`. */
  function IndexOfName(sensors: seq<Sensor>, name: string, from: nat): (r: Option<nat>)
    requires from <= |sensors|
    ensures r.Some? ==> from <= r.value < |sensors| && sensors[r.value].name == name
    ensures forall j :: from <= j < |sensors| && (r.None? || j < r.value) ==> sensors[j].name != name
    decreases |sensors| - from
  {
    if from == |sensors| then None
    else if sensors[from].name == name then Some(from)
    else IndexOfName(sensors, name, from + 1)
  }

  /** The outer loop of `find_sensor_by_name`, from board `from` on. */
  function FindFrom(boards: BoardsList, name: string, from: nat): (r: Option<Loc>)
    requires from <= |boards|
    ensures r.Some? ==> ValidLoc(boards, r.value) && from <= r.value.board && At(boards, r.value).name == name
    ensures forall i, j ::
      (&& from <= i < |boards| && 0 <= j < |boards[i].sensors|
       && (r.None? || i < r.value.board || (i == r.value.board && j < r.value.slot)))
      ==> boards[i].sensors[j].name != name
    decreases |boards| - from
  {
    if from == |boards| then None
    else match IndexOfName(boards[from].sensors, name, 0)
      case Some(j) => Some(Loc(from, j))
      case None => FindFrom(boards, name, from + 1)
  }

  /** `Board.find_sensor_by_name`: the first sensor with that name, or `None`
      (`find_sensor_by_name` returns `False`) exactly when no sensor has it. */
  function FindSensorByName(boards: BoardsList, name: string): (r: Option<Loc>)
    ensures r.Some? ==> FirstNamed(boards, name, r.value)
    ensures r.None? <==> !HasName(boards, name)
  {
    FindFrom(boards, name, 0)
  }

  /** There is only one first match, so it is what the lookup returns. */
  lemma FindSensorByNameIsFirstNamed(boards: BoardsList, name: string)
    ensures forall l :: FirstNamed(boards, name, l) <==> FindSensorByName(boards, name) == Some(l)
  {
    forall l | FirstNamed(boards, name, l)
      ensures FindSensorByName(boards, name) == Some(l)
    {
    }
  }

  /** Lookups agree on registries with the same names in the same places. */
  lemma SameNamesSameLookup(a: BoardsList, b: BoardsList, name: string)
    requires SameNames(a, b)
    ensures FindSensorByName(a, name) == FindSensorByName(b, name)
    ensures HasName(a, name) <==> HasName(b, name)
  {
    FindSensorByNameIsFirstNamed(a, name);
    FindSensorByNameIsFirstNamed(b, name);
    if HasName(a, name) {
      var l := FindSensorByName(a, name).value;
      assert FirstNamed(b, name, l);
    }
  }

  /** The lookup returns the first sensor of `AllSensors` with that name,
      and finds nothing exactly when `AllSensors` has no such name. */
  lemma FindSensorByNameIsFirstInAllSensors(boards: BoardsList, name: string)
    ensures FindSensorByName(boards, name).None? <==>
      forall i :: 0 <= i < |AllSensors(boards)| ==> AllSensors(boards)[i].name != name
    ensures FindSensorByName(boards, name).Some? ==>
      && FlatIndex(boards, FindSensorByName(boards, name).value) < |AllSensors(boards)|
      && AllSensors(boards)[FlatIndex(boards, FindSensorByName(boards, name).value)].name == name
      && forall i :: 0 <= i < FlatIndex(boards, FindSensorByName(boards, name).value) ==> AllSensors(boards)[i].name != name
  {
    var all := AllSensors(boards);
    match FindSensorByName(boards, name)
    case None =>
      forall i | 0 <= i < |all|
        ensures all[i].name != name
      {
        var l := AllSensorsLoc(boards, i);
        AllSensorsAt(boards, l);
      }
    case Some(f) =>
      AllSensorsAt(boards, f);
      forall i | 0 <= i < FlatIndex(boards, f)
        ensures all[i].name != name
      {
        var l := AllSensorsLoc(boards, i);
        AllSensorsAt(boards, l);
        FlatIndexOrder(boards, l, f);
      }
  }

  // ---------------------------------------------------------------------
  // Connect, disconnect, rename
  // ---------------------------------------------------------------------

  /** The registry after an operation, and the lines it wrote, in order. */
  datatype Step = Step(boards: BoardsList, writes: seq<Write>)

  /** `Board.connect_sensor`: when the first sensor called `name` exists and
      is not connected, writes `"c" + pin` to its board and marks it
      connected; otherwise does nothing. No other sensor changes. */
  function ConnectSensor(boards: BoardsList, name: string): (r: Step)
    ensures forall l :: FirstNamed(boards, name, l) && !At(boards, l).connected ==>
      && r.writes == [Write(l.board, Encode(ConnectPin(At(boards, l).pin)))]
      && SameExcept(boards, r.boards, l)
      && At(r.boards, l) == At(boards, l).(connected := true)
    ensures (forall l :: FirstNamed(boards, name, l) ==> At(boards, l).connected) ==> r == Step(boards, [])
  {
    FindSensorByNameIsFirstNamed(boards, name);
    match FindSensorByName(boards, name)
    case None => Step(boards, [])
    case Some(l) =>
      var sensor := At(boards, l);
      if sensor.connected then Step(boards, [])
      else Step(Replace(boards, l, sensor.(connected := true)), [Write(l.board, Encode(ConnectPin(sensor.pin)))])
  }

  /** `Board.disconnect_sensor`: when the first sensor called `name` exists
      and is connected, writes `"d" + pin` to its board and marks it
      disconnected; otherwise does nothing. No other sensor changes. */
  function DisconnectSensor(boards: BoardsList, name: string): (r: Step)
    ensures forall l :: FirstNamed(boards, name, l) && At(boards, l).connected ==>
      && r.writes == [Write(l.board, Encode(DisconnectPin(At(boards, l).pin)))]
      && SameExcept(boards, r.boards, l)
      && At(r.boards, l) == At(boards, l).(connected := false)
    ensures (forall l :: FirstNamed(boards, name, l) ==> !At(boards, l).connected) ==> r == Step(boards, [])
  {
    FindSensorByNameIsFirstNamed(boards, name);
    match FindSensorByName(boards, name)
    case None => Step(boards, [])
    case Some(l) =>
      var sensor := At(boards, l);
      if !sensor.connected then Step(boards, [])
      else Step(Replace(boards, l, sensor.(connected := false)), [Write(l.board, Encode(DisconnectPin(sensor.pin)))])
  }

  /** Connecting and then disconnecting a sensor that was not connected
      restores the registry, and writes `"c" + pin` then `"d" + pin` to its
      board (nothing at all when no sensor has the name). */
  lemma ConnectThenDisconnect(boards: BoardsList, name: string)
    requires forall l :: FirstNamed(boards, name, l) ==> !At(boards, l).connected
    ensures DisconnectSensor(ConnectSensor(boards, name).boards, name).boards == boards
    ensures forall l :: FirstNamed(boards, name, l) ==>
      ConnectSensor(boards, name).writes + DisconnectSensor(ConnectSensor(boards, name).boards, name).writes
        == [Write(l.board, Encode(ConnectPin(At(boards, l).pin))), Write(l.board, Encode(DisconnectPin(At(boards, l).pin)))]
    ensures !HasName(boards, name) ==>
      ConnectSensor(boards, name).writes + DisconnectSensor(ConnectSensor(boards, name).boards, name).writes == []
  {
    FindSensorByNameIsFirstNamed(boards, name);
    var c := ConnectSensor(boards, name);
    match FindSensorByName(boards, name)
    case None =>
    case Some(l) =>
      assert SameNames(boards, c.boards);
      SameNamesSameLookup(boards, c.boards, name);
      FindSensorByNameIsFirstNamed(c.boards, name);
      assert FirstNamed(c.boards, name, l);
      var d := DisconnectSensor(c.boards, name);
      assert SameExcept(boards, d.boards, l);
      SameExceptSameAt(boards, d.boards, l);
  }

  /** `Board.rename_sensor`: gives the first sensor called `oldName` the name
      `newName`, unless no sensor is called `oldName` or some sensor is
      already called `newName` (so renaming to the same name does nothing).
      Nothing is written and no other sensor changes. */
  function RenameSensor(boards: BoardsList, oldName: string, newName: string): (r: BoardsList)
    ensures forall l :: FirstNamed(boards, oldName, l) && !HasName(boards, newName) ==>
      && SameExcept(boards, r, l)
      && At(r, l) == At(boards, l).(name := newName)
    ensures !HasName(boards, oldName) || HasName(boards, newName) ==> r == boards
  {
    FindSensorByNameIsFirstNamed(boards, oldName);
    match FindSensorByName(boards, oldName)
    case None => boards
    case Some(l) =>
      if FindSensorByName(boards, newName).Some? then boards
      else Replace(boards, l, At(boards, l).(name := newName))
  }

  /** Renaming a sensor to the name it already has changes nothing. */
  lemma RenameToSameName(boards: BoardsList, name: string)
    ensures RenameSensor(boards, name, name) == boards
  {
  }

  /** Rename never introduces a duplicate name. */
  lemma RenameKeepsNamesUnique(boards: BoardsList, oldName: string, newName: string)
    requires NamesUnique(boards)
    ensures NamesUnique(RenameSensor(boards, oldName, newName))
  {
    FindSensorByNameIsFirstNamed(boards, oldName);
    var r := RenameSensor(boards, oldName, newName);
    if HasName(boards, oldName) && !HasName(boards, newName) {
      var l := FindSensorByName(boards, oldName).value;
      forall i1, j1, i2, j2 |
        0 <= i1 < |r| && 0 <= j1 < |r[i1].sensors| &&
        0 <= i2 < |r| && 0 <= j2 < |r[i2].sensors| &&
        r[i1].sensors[j1].name == r[i2].sensors[j2].name
        ensures i1 == i2 && j1 == j2
      {
      }
    }
  }

  /** With unique names, renaming `a` to a free name `b` and back again
      restores the registry. */
  lemma RenameRoundTrip(boards: BoardsList, a: string, b: string)
    requires NamesUnique(boards) && HasName(boards, a) && !HasName(boards, b)
    ensures RenameSensor(RenameSensor(boards, a, b), b, a) == boards
  {
    FindSensorByNameIsFirstNamed(boards, a);
    var l := FindSensorByName(boards, a).value;
    var r1 := RenameSensor(boards, a, b);
    assert FirstNamed(r1, b, l);
    assert !HasName(r1, a);
    var r2 := RenameSensor(r1, b, a);
    assert SameExcept(boards, r2, l);
    SameExceptSameAt(boards, r2, l);
  }

  /** A connect that writes adds one reading to what the owning board's next
      measure reply must carry; a disconnect that writes removes one. */
  lemma ConnectChangesExpectedReadings(boards: BoardsList, name: string)
    ensures forall l :: FirstNamed(boards, name, l) && !At(boards, l).connected ==>
      ExpectedReadings(ConnectSensor(boards, name).boards[l.board]) == ExpectedReadings(boards[l.board]) + 1
    ensures forall l :: FirstNamed(boards, name, l) && At(boards, l).connected ==>
      ExpectedReadings(DisconnectSensor(boards, name).boards[l.board]) + 1 == ExpectedReadings(boards[l.board])
  {
    forall l | FirstNamed(boards, name, l) && !At(boards, l).connected
      ensures ExpectedReadings(ConnectSensor(boards, name).boards[l.board]) == ExpectedReadings(boards[l.board]) + 1
    {
      var sensors := boards[l.board].sensors;
      var after := ConnectSensor(boards, name).boards[l.board].sensors;
      assert after == sensors[l.slot := sensors[l.slot].(connected := true)];
      ConnectedCountAfterUpdate(sensors, l.slot, sensors[l.slot].(connected := true));
    }
    forall l | FirstNamed(boards, name, l) && At(boards, l).connected
      ensures ExpectedReadings(DisconnectSensor(boards, name).boards[l.board]) + 1 == ExpectedReadings(boards[l.board])
    {
      var sensors := boards[l.board].sensors;
      var after := DisconnectSensor(boards, name).boards[l.board].sensors;
      assert after == sensors[l.slot := sensors[l.slot].(connected := false)];
      ConnectedCountAfterUpdate(sensors, l.slot, sensors[l.slot].(connected := false));
    }
  }

  // ---------------------------------------------------------------------
  // Pins are positions
  // ---------------------------------------------------------------------

  /** Every sensor's pin is its position in its board's list, as
      `generate_sensors_list` creates them; `c<pin>` and `d<pin>` rely on it. */
  predicate PinsAreSlots(boards: BoardsList) {
    forall b :: 0 <= b < |boards| ==> PinsArePositions(boards[b].sensors)
  }

  /** Changing one sensor without touching its pin keeps the pins in place. */
  lemma SameExceptKeepsPins(a: BoardsList, b: BoardsList, l: Loc)
    requires ValidLoc(a, l) && SameExcept(a, b, l) && At(b, l).pin == At(a, l).pin
    requires PinsAreSlots(a)
    ensures PinsAreSlots(b)
  {
    forall i | 0 <= i < |b|
      ensures PinsArePositions(b[i].sensors)
    {
      forall j | 0 <= j < |b[i].sensors|
        ensures b[i].sensors[j].pin == j
      {
        assert PinsArePositions(a[i].sensors);
        if i != l.board || j != l.slot {
          assert b[i].sensors[j] == a[i].sensors[j];
        }
      }
    }
  }

  lemma ConnectSensorKeepsPins(boards: BoardsList, name: string)
    requires PinsAreSlots(boards)
    ensures PinsAreSlots(ConnectSensor(boards, name).boards)
  {
    FindSensorByNameIsFirstNamed(boards, name);
    if l :| FirstNamed(boards, name, l) && !At(boards, l).connected {
      SameExceptKeepsPins(boards, ConnectSensor(boards, name).boards, l);
    }
  }

  lemma DisconnectSensorKeepsPins(boards: BoardsList, name: string)
    requires PinsAreSlots(boards)
    ensures PinsAreSlots(DisconnectSensor(boards, name).boards)
  {
    FindSensorByNameIsFirstNamed(boards, name);
    if l :| FirstNamed(boards, name, l) && At(boards, l).connected {
      SameExceptKeepsPins(boards, DisconnectSensor(boards, name).boards, l);
    }
  }

  lemma RenameSensorKeepsPins(boards: BoardsList, oldName: string, newName: string)
    requires PinsAreSlots(boards)
    ensures PinsAreSlots(RenameSensor(boards, oldName, newName))
  {
    FindSensorByNameIsFirstNamed(boards, oldName);
    if l :| FirstNamed(boards, oldName, l) && !HasName(boards, newName) {
      SameExceptKeepsPins(boards, RenameSensor(boards, oldName, newName), l);
    }
  }

  // ---------------------------------------------------------------------
  // Measuring every board
  // ---------------------------------------------------------------------

  /** The measure command written to boards `0 .. n - 1`, in that order. */
  function MeasureWrites(n: nat): seq<Write> {
    seq(n, b requires 0 <= b < n => Write(b, Encode(Command.Measure)))
  }

  /** Board `s` is the first whose measurement fails. */
  predicate FailsFirstAt(boards: BoardsList, replies: seq<string>, s: int)
    requires |replies| == |boards|
  {
    && 0 <= s < |boards|
    && Measured(boards[s], replies[s]).error.Some?
    && forall b :: 0 <= b < s ==> Measured(boards[b], replies[b]).error.None?
  }

  /** Boards `0 .. n - 1` of `r` are those of `boards` as measured. */
  predicate MeasuredBelow(boards: BoardsList, replies: seq<string>, r: BoardsList, n: int)
    requires |replies| == |boards| == |r|
  {
    forall b :: 0 <= b < n && b < |boards| ==> r[b] == Measured(boards[b], replies[b]).board
  }

  /** Boards `n ..` of `r` are those of `boards`, unchanged. */
  predicate UnchangedFrom(boards: BoardsList, r: BoardsList, n: int)
    requires |boards| == |r|
  {
    forall b :: 0 <= n <= b < |boards| ==> r[b] == boards[b]
  }

  /** `Board.measure_all_boards`: measures the boards in registry order, board
      `b` reading reply line `replies[b]`. The first board whose measurement
      fails ends the call with its error: the boards before it are fully
      measured, it is measured as far as its reply allowed, and the boards
      after it are neither written to nor changed. */
  method MeasureAllBoards(boards: BoardsList, replies: seq<string>) returns (r: BoardsList, err: Option<MeasureError>, writes: seq<Write>)
    requires |replies| == |boards|
    ensures SameShape(boards, r)
    ensures err.None? <==> forall b :: 0 <= b < |boards| ==> Measured(boards[b], replies[b]).error.None?
    ensures err.None? ==> writes == MeasureWrites(|boards|) && MeasuredBelow(boards, replies, r, |boards|)
    ensures forall s :: FailsFirstAt(boards, replies, s) ==>
      && err == Measured(boards[s], replies[s]).error
      && writes == MeasureWrites(s + 1)
      && MeasuredBelow(boards, replies, r, s + 1)
      && UnchangedFrom(boards, r, s + 1)
  {
    r, err, writes := boards, None, [];
    var b := 0;
    while b < |boards|
      invariant 0 <= b <= |boards| == |r|
      invariant SameShape(boards, r)
      invariant forall x :: 0 <= x < b ==> Measured(boards[x], replies[x]).error.None?
      invariant MeasuredBelow(boards, replies, r, b)
      invariant UnchangedFrom(boards, r, b)
      invariant writes == MeasureWrites(b)
    {
      var measured, e, w := Boards.Measure(boards[b], b, replies[b]);
      MeasuredOnlyChangesConnectedValues(boards[b], replies[b]);
      r := r[b := measured];
      writes := writes + w;
      assert writes == MeasureWrites(b + 1);
      if e.Some? {
        assert FailsFirstAt(boards, replies, b);
        err := e;
        return;
      }
      b := b + 1;
    }
  }

  /** Whichever way `MeasureAllBoards` ends, boards measured so far and
      boards left alone both keep every pin at its position. */
  lemma MeasureAllKeepsPins(boards: BoardsList, replies: seq<string>, r: BoardsList, n: nat)
    requires |replies| == |boards| == |r|
    requires MeasuredBelow(boards, replies, r, n) && UnchangedFrom(boards, r, n)
    requires PinsAreSlots(boards)
    ensures PinsAreSlots(r)
  {
    forall b | 0 <= b < |r|
      ensures PinsArePositions(r[b].sensors)
    {
      assert PinsArePositions(boards[b].sensors);
      if b < n {
        MeasuredKeepsPins(boards[b], replies[b]);
      } else {
        assert r[b] == boards[b];
      }
    }
  }
}

=== FILE: results.dfy ===
/** Failure-carrying values shared by the rest of the model. */
module Results {

  /** A value that may be absent: the `False` that `find_sensor_by_name` returns
      when no sensor has the name,
      or a sensor value that has not been measured yet. */
  datatype Option<+T> = None | Some(value: T)

  /** Either a value or the error that a Python exception would have carried. */
  datatype Result<+T, +E> = Success(value: T) | Failure(error: E)
}

=== FILE: text.dfy ===
/** The Python string operations the board logic relies on: `str.split` with
    an explicit separator, `str()` of a non-negative int, and `int()` of a
    decimal token. Strings are sequences of code points. */
module Text {
  import opened Results

  // ---------------------------------------------------------------------
  // str.split(sep)
  // ---------------------------------------------------------------------

  /** `s.split(sep)`: the pieces of `s` between occurrences of `sep`. There is
      always at least one piece, and empty pieces are kept. */
  function Split(s: string, sep: char): (r: seq<string>)
    ensures |r| >= 1
    ensures forall i :: 0 <= i < |r| ==> sep !in r[i]
    ensures sep !in s ==> r == [s]
  {
    if |s| == 0 then [""]
    else
      var rest := Split(s[1..], sep);
      if s[0] == sep then [""] + rest
      else
        assert sep !in s ==> [s[0]] + rest[0] == s;
        [[s[0]] + rest[0]] + rest[1..]
  }

  /** `sep.join(pieces)`, the inverse of `Split`. */
  function Join(pieces: seq<string>, sep: char): string
    requires |pieces| >= 1
  {
    if |pieces| == 1 then pieces[0] else pieces[0] + [sep] + Join(pieces[1..], sep)
  }

  /** Splitting loses nothing: joining the pieces back gives the original. */
  lemma {:induction false} JoinSplit(s: string, sep: char)
    ensures Join(Split(s, sep), sep) == s
  {
    if |s| > 0 {
      JoinSplit(s[1..], sep);
      var rest := Split(s[1..], sep);
      if s[0] == sep {
        assert Split(s, sep) == [""] + rest;
        assert ([""] + rest)[1..] == rest;
        assert s == [sep] + s[1..];
      } else {
        var first := [s[0]] + rest[0];
        assert Split(s, sep) == [first] + rest[1..];
        if |rest| == 1 {
          assert Join(rest, sep) == rest[0];
        } else {
          assert ([first] + rest[1..])[1..] == rest[1..];
          assert Join(rest, sep) == rest[0] + [sep] + Join(rest[1..], sep);
        }
        assert s == [s[0]] + s[1..];
      }
    }
  }

  /** A prefix free of the separator is glued onto the first piece of what follows. */
  lemma {:induction false} SplitAfterPlainPrefix(p: string, t: string, sep: char)
    requires sep !in p
    ensures Split(p + t, sep) == [p + Split(t, sep)[0]] + Split(t, sep)[1..]
  {
    if |p| == 0 {
      assert p + t == t;
      var r := Split(t, sep);
      assert p + r[0] == r[0];
      assert r == [r[0]] + r[1..];
    } else {
      SplitAfterPlainPrefix(p[1..], t, sep);
      assert (p + t)[1..] == p[1..] + t;
      assert [p[0]] + (p[1..] + Split(t, sep)[0]) == p + Split(t, sep)[0];
    }
  }

  /** Joining pieces that do not contain the separator and splitting again
      gives the pieces back. */
  lemma {:induction false} SplitJoin(pieces: seq<string>, sep: char)
    requires |pieces| >= 1
    requires forall i :: 0 <= i < |pieces| ==> sep !in pieces[i]
    ensures Split(Join(pieces, sep), sep) == pieces
  {
    if |pieces| == 1 {
      SplitAfterPlainPrefix(pieces[0], "", sep);
      assert pieces[0] + "" == pieces[0];
    } else {
      var tail := Join(pieces[1..], sep);
      SplitJoin(pieces[1..], sep);
      SplitAfterPlainPrefix(pieces[0], [sep] + tail, sep);
      assert pieces[0] + [sep] + tail == pieces[0] + ([sep] + tail);
      assert ([sep] + tail)[1..] == tail;
      var r := [""] + pieces[1..];
      assert Split([sep] + tail, sep) == r;
      assert r[0] == "" && r[1..] == pieces[1..];
      assert pieces[0] + r[0] == pieces[0];
      assert pieces == [pieces[0]] + pieces[1..];
    }
  }

  // ---------------------------------------------------------------------
  // Decimal digits
  // ---------------------------------------------------------------------

  predicate IsDigit(c: char) {
    '0' <= c <= '9'
  }

  function DigitValue(c: char): nat
    requires IsDigit(c)
  {
    (c as int) - ('0' as int)
  }

  function DigitChar(d: nat): char
    requires d < 10
  {
    (('0' as int) + d) as char
  }

  /** `str(n)` (and an f-string `{n}`) for `n >= 0`: decimal, without leading zeros. */
  function NatToString(n: nat): (r: string)
    ensures |r| >= 1
    ensures forall i :: 0 <= i < |r| ==> IsDigit(r[i])
    ensures r[0] == '0' <==> n == 0
  {
    if n < 10 then [DigitChar(n)] else NatToString(n / 10) + [DigitChar(n % 10)]
  }

  predicate AllDigits(s: string) {
    forall i :: 0 <= i < |s| ==> IsDigit(s[i])
  }

  /** Digits and underscores only: the characters `int()` reads as the number. */
  predicate DigitsOrUnderscores(s: string) {
    forall i :: 0 <= i < |s| ==> IsDigit(s[i]) || s[i] == '_'
  }

  /** The value of the digits of `s` read in base 10, underscores skipped. */
  function DigitsValue(s: string): nat
    requires DigitsOrUnderscores(s)
  {
    if |s| == 0 then 0
    else if s[|s| - 1] == '_' then DigitsValue(s[..|s| - 1])
    else 10 * DigitsValue(s[..|s| - 1]) + DigitValue(s[|s| - 1])
  }

  /** `NatToString` is read back as the same number. */
  lemma {:induction false} DigitsValueNatToString(n: nat)
    ensures DigitsOrUnderscores(NatToString(n))
    ensures DigitsValue(NatToString(n)) == n
  {
    var r := NatToString(n);
    if n >= 10 {
      DigitsValueNatToString(n / 10);
      assert r[..|r| - 1] == NatToString(n / 10);
      assert r[|r| - 1] == DigitChar(n % 10);
    }
  }

  // ---------------------------------------------------------------------
  // int(token)
  // ---------------------------------------------------------------------

  /** The white space `int()` ignores around the number: the ASCII space and
      `\t \n \v \f \r`, and the white space code points above U+007F, which
      `int()` turns into spaces first. U+001C..U+001F, although `str.isspace`
      accepts them, are not ignored. */
  predicate IsSpace(c: char) {
    var k := c as int;
    || k == 0x20 || 0x09 <= k <= 0x0d
    || k == 0x85 || k == 0xa0 || k == 0x1680 || 0x2000 <= k <= 0x200a
    || k == 0x2028 || k == 0x2029 || k == 0x202f || k == 0x205f || k == 0x3000
  }

  function TrimStart(s: string): (r: string)
    ensures |r| <= |s|
  {
    if |s| > 0 && IsSpace(s[0]) then TrimStart(s[1..]) else s
  }

  function TrimEnd(s: string): (r: string)
    ensures |r| <= |s|
  {
    if |s| > 0 && IsSpace(s[|s| - 1]) then TrimEnd(s[..|s| - 1]) else s
  }

  /** Removes the white space `int()` ignores from both ends. Unlike
      `str.strip`, it keeps U+001C..U+001F. */
  function Strip(s: string): string {
    TrimEnd(TrimStart(s))
  }

  /** The body of a decimal integer literal as `int()` accepts it: digits,
      with single underscores allowed between two digits. */
  predicate IsDecimalBody(s: string) {
    && |s| > 0
    && IsDigit(s[0])
    && IsDigit(s[|s| - 1])
    && DigitsOrUnderscores(s)
    && forall i :: 0 <= i < |s| - 1 && s[i] == '_' ==> s[i + 1] != '_'
  }

  /** `int(token)` in base 10: surrounding white space is ignored, one optional
      sign, then a decimal body. `None` is the `ValueError` case. */
  function ParseInt(token: string): (r: Option<int>)
    ensures r.Some? ==> |Strip(token)| > 0
    ensures r.Some? ==> forall i :: 0 <= i < |Strip(token)| ==>
      IsDigit(Strip(token)[i]) || Strip(token)[i] == '_' || (i == 0 && Strip(token)[i] in "+-")
    ensures r.Some? ==> IsDigit(Strip(token)[|Strip(token)| - 1])
    ensures r.Some? && r.value < 0 ==> Strip(token)[0] == '-'
  {
    var t := Strip(token);
    if |t| > 0 && t[0] == '-' && IsDecimalBody(t[1..]) then Some(-(DigitsValue(t[1..]) as int))
    else if |t| > 0 && t[0] == '+' && IsDecimalBody(t[1..]) then Some(DigitsValue(t[1..]))
    else if IsDecimalBody(t) then Some(DigitsValue(t))
    else None
  }

  lemma NoSpaceIsStripped(s: string)
    requires AllDigits(s)
    ensures Strip(s) == s
  {
    if |s| > 0 {
      assert !IsSpace(s[0]);
      assert !IsSpace(s[|s| - 1]);
    }
  }

  /** Trimming the end keeps a prefix of the text. */
  lemma {:induction false} TrimEndIsPrefix(s: string)
    ensures TrimEnd(s) == s[..|TrimEnd(s)|]
    decreases |s|
  {
    if |s| > 0 && IsSpace(s[|s| - 1]) {
      var front := s[..|s| - 1];
      TrimEndIsPrefix(front);
      assert front[..|TrimEnd(front)|] == s[..|TrimEnd(front)|];
    }
  }

  /** A token that starts with one of the separators U+001C..U+001F is a
      `ValueError`: `int()` does not skip them. */
  lemma ParseIntRejectsLeadingSeparator(t: string)
    requires |t| > 0 && 0x1c <= t[0] as int <= 0x1f
    ensures ParseInt(t) == None
  {
    assert TrimStart(t) == t;
    TrimEndIsPrefix(t);
    var s := Strip(t);
    if |s| > 0 {
      assert s[0] == t[0];
    }
  }

  /** Leading white space is skipped whatever follows it. */
  lemma {:induction false} TrimStartSpaces(w: string, x: string)
    requires forall i :: 0 <= i < |w| ==> IsSpace(w[i])
    ensures TrimStart(w + x) == TrimStart(x)
  {
    if |w| == 0 {
      assert w + x == x;
    } else {
      assert (w + x)[1..] == w[1..] + x;
      TrimStartSpaces(w[1..], x);
    }
  }

  /** Trailing white space is skipped whatever precedes it. */
  lemma {:induction false} TrimEndSpaces(x: string, w: string)
    requires forall i :: 0 <= i < |w| ==> IsSpace(w[i])
    ensures TrimEnd(x + w) == TrimEnd(x)
  {
    if |w| == 0 {
      assert x + w == x;
    } else {
      var front := w[..|w| - 1];
      assert (x + w)[..|x + w| - 1] == x + front;
      TrimEndSpaces(x, front);
    }
  }

  /** `int()` reads the decimal text of `n` as `n` with any white space it
      ignores on either side. */
  lemma ParseIntPadded(w1: string, n: nat, w2: string)
    requires forall i :: 0 <= i < |w1| ==> IsSpace(w1[i])
    requires forall i :: 0 <= i < |w2| ==> IsSpace(w2[i])
    ensures ParseInt(w1 + NatToString(n) + w2) == Some(n)
  {
    var s := NatToString(n);
    assert w1 + s + w2 == w1 + (s + w2);
    TrimStartSpaces(w1, s + w2);
    assert TrimStart(s + w2) == s + w2;
    TrimEndSpaces(s, w2);
    NoSpaceIsStripped(s);
    ParseIntNatToString(n);
  }

  /** `int(str(n)) == n` for every `n >= 0`. */
  lemma ParseIntNatToString(n: nat)
    ensures ParseInt(NatToString(n)) == Some(n)
  {
    var s := NatToString(n);
    NoSpaceIsStripped(s);
    DigitsValueNatToString(n);
    assert !IsDigit('-') && !IsDigit('+');
    assert IsDecimalBody(s);
  }

  /** `int("-" + str(n)) == -n` for every `n >= 0`. */
  lemma ParseIntNegative(n: nat)
    ensures ParseInt("-" + NatToString(n)) == Some(-(n as int))
  {
    var s := NatToString(n);
    var t := "-" + s;
    DigitsValueNatToString(n);
    assert IsDecimalBody(s);
    assert t[1..] == s;
    assert t[|t| - 1] == s[|s| - 1];
    assert TrimStart(t) == t;
    assert TrimEnd(t) == t;
  }
}

=== FILE: thermistor.dfy ===
/** `Board.get_temperature_by_pin_value`: a raw 10-bit ADC reading through a
    voltage divider (fixed 1000 ohm resistor and thermistor) to degrees, with
    a linear resistance-to-temperature fit. Computed over exact reals. */
module Thermistor {
  import opened Results

  const MaxVoltage: real := 5.0
  const MaxSensorValue: real := 1024.0
  const ResistorResistance: real := 1000.0

  /** The temperature for a raw pin value, in the order of operations of
      `get_temperature_by_pin_value`. `None` is the `ZeroDivisionError`
      Python raises when the computed voltage equals the supply voltage. */
  function Temperature(pinValue: int): (r: Option<real>)
    ensures r.None? <==> pinValue == 1024
  {
    var voltage := MaxVoltage * (pinValue as real) / MaxSensorValue;
    if MaxVoltage - voltage == 0.0 then None
    else
      var resistance := ResistorResistance * voltage / (MaxVoltage - voltage);
      Some(100.0 / 385.0 * resistance - 100000.0 / 385.0)
  }

  /** The thermistor resistance implied by a reading, with the voltage
      factors cancelled. */
  function Resistance(pinValue: int): real
    requires pinValue != 1024
  {
    1000.0 * (pinValue as real) / (1024.0 - pinValue as real)
  }

  lemma TemperatureIsLinearInResistance(v: int)
    requires v != 1024
    ensures Temperature(v) == Some(100.0 / 385.0 * Resistance(v) - 100000.0 / 385.0)
  {
    var x := v as real;
    var voltage := 5.0 * x / 1024.0;
    assert 5.0 - voltage == 5.0 * (1024.0 - x) / 1024.0;
    assert 1000.0 * voltage / (5.0 - voltage) == 1000.0 * x / (1024.0 - x);
  }

  /** Reference points: a reading of 0 is the fit's offset and a reading of
      512 (half the supply voltage) is exactly zero degrees. */
  lemma TemperatureGoldenValues()
    ensures Temperature(0) == Some(-100000.0 / 385.0)
    ensures Temperature(512) == Some(0.0)
  {
    TemperatureIsLinearInResistance(0);
    TemperatureIsLinearInResistance(512);
    assert Resistance(0) == 0.0;
    assert Resistance(512) == 1000.0;
  }

  lemma ResistanceIncreasing(a: int, b: int)
    requires 0 <= a < b < 1024
    ensures Resistance(a) < Resistance(b)
  {
    var x, y := a as real, b as real;
    var dx, dy := 1024.0 - x, 1024.0 - y;
    assert dx > 0.0 && dy > 0.0;
    assert x * dy < y * dx;
    assert x / dx < y / dy by {
      assert x / dx == (x * dy) / (dx * dy);
      assert y / dy == (y * dx) / (dx * dy);
      DivideByPositive(x * dy, y * dx, dx * dy);
    }
  }

  lemma DivideByPositive(p: real, q: real, d: real)
    requires d > 0.0 && p < q
    ensures p / d < q / d
  {
    assert q / d - p / d == (q - p) / d;
  }

  /** Over the ADC's range the conversion is defined and strictly
      increasing: a higher reading always means a higher temperature. */
  lemma TemperatureIncreasing(a: int, b: int)
    requires 0 <= a < b < 1024
    ensures Temperature(a).Some? && Temperature(b).Some?
    ensures Temperature(a).value < Temperature(b).value
  {
    TemperatureIsLinearInResistance(a);
    TemperatureIsLinearInResistance(b);
    ResistanceIncreasing(a, b);
  }
}
